=== FILE: README.md ===
# Indicator engine of the trading dashboard, in Dafny

The dashboard (`app.py`) downloads a price table for a ticker, flattens the
table's two-level column header, and adds technical-indicator columns to it.
All of them are derived from the close series:

- two trailing simple moving averages, `MA_Courte` and `MA_Longue`;
- Cutler's RSI, which averages up-moves and down-moves with a simple moving
  average rather than Wilder smoothing;
- MACD and its signal line, built from exponential moving averages in
  pandas' `adjust=False` form;
- a stochastic oscillator that takes the rolling minimum and maximum of the
  close series itself.

This project models those transforms as pure functions over `seq<real>`.
Prices are exact rationals. The NaN that pandas puts in warm-up and
undefined cells becomes `Option.None`. The moving average and the EMA are
defined by their formula, and each is proved equal to an online pass of the
kind pandas runs (`MovingAverage.RollingMeanOnline`, `Macd.EmaOnline`). Both
also get properties of their own: bounds, constant series, and a shift law
(moving every close by c moves every value by c). MACD is stated as the
difference of two EMAs with an EMA signal line, and gets the matching
constant and shift laws. RSI and
the stochastic oscillator are stated through properties: the warm-up prefix,
the bounds, when the value is 0 or 100 and the reading it encodes, and how
they behave on constant and strictly rising series.

Modules, one file each:

- `Optional`: the `Option` marker.
- `Series`: sums, window minimum and maximum, and the predicates the
  properties are stated with.
- `MovingAverage`: `rolling(w).mean()`.
- `Rsi`: `compute_rsi`.
- `Macd`: `ewm(span, adjust=False).mean()` and `compute_macd`.
- `Stochastic`: `compute_stochastic`.
- `Columns`: the header flattening in `load_data`.
- `Dashboard`: the main branch, from the flattened table to the page: the
  empty-table warning, the failure when a chart's column (`Date_`, `Close`
  or `Volume`) is missing together with the moving averages computed before
  it, and the indicator columns.

The code has two quirks, and both are kept on purpose:

- The stochastic oscillator uses the close series for both its rolling
  minimum and its rolling maximum (`app.py:121-122`). It does not use the
  low and high series.
- The RSI's first full window already has a value. `diff(1)` leaves the
  first difference undefined, but `delta.where(delta > 0, 0)` turns it into
  0 rather than NaN. So the first `period - 1` positions are undefined, not
  the first `period`. One could read the warm-up as `period` positions, but
  the code does not do that, and the model follows the code
  (`Rsi.RsiWarmUpExample`, `Rsi.RsiOfStrictlyIncreasing`).

Float division is modelled case by case. Where pandas would divide:

- RSI with a zero average loss and a positive average gain: `gain / 0` is
  infinite, so the RSI is 100. When both averages are 0, the RSI has no
  value.
- Stochastic over a flat window: this is `0 / 0`, because the close lies in
  its own window. It has no value.

## Model

| member | source | states |
|---|---|---|
| MovingAverage.RollingMean | app.py:50-51 | The column is as long as the closes. Position i has a value exactly when i >= w-1, and that value is the sum of closes i-w+1..i divided by w. A window longer than the series leaves every position empty. |
| MovingAverage.RollingMeanOnline | app.py:50-51 | A running-sum pass is proved equal to the trailing-mean definition. It adds the entering close and subtracts the leaving one, as pandas' rolling mean does. |
| MovingAverage.SlideWindow | app.py:50-51 | Given the sum of the window ending before position i, adding the close at i and dropping the one that leaves gives the sum of the window ending at i. Before the window is full, nothing is dropped. |
| MovingAverage.RollingMeanWithinWindow | app.py:50-51 | Every defined average lies between the smallest and the largest close of its window. |
| MovingAverage.RollingMeanNonNegative | app.py:50-51 | The rolling mean of a column with no negative entry is non-negative wherever it is defined. The RSI relies on this for its gain and loss averages. |
| MovingAverage.RollingMeanShift | app.py:50-51 | Adding c to every close adds c to every defined average. |
| MovingAverage.RollingMeanOfConstant | app.py:50-51 | On a constant close series, every defined average equals that constant. |
| MovingAverage.RollingMeanExample | app.py:50-51 | For window 3, [1,2,3,4,5] gives [_, _, 2, 3, 4]. |
| Rsi.Diff | app.py:82 | The difference column is as long as the closes. Position 0 has no value. Every later position has a value, and adding it to the previous close gives back the current close. |
| Rsi.FirstDifferenceFilled | app.py:82-84 | The first difference is missing, yet the gain and the loss at position 0 are both 0 rather than missing. |
| Rsi.Gains | app.py:83 | The gain column is never negative. It is 0 at position 0, where the missing difference becomes 0. After that it is the larger of the close-to-close move and 0. |
| Rsi.Losses | app.py:84 | The loss column is never negative. It is 0 at position 0. After that it is the larger of the close-to-close drop and 0. |
| Rsi.GainsLossesSplitDiff | app.py:82-84 | Gain minus loss is the value of the first difference, and at most one of them is non-zero. Gain is positive exactly when the close rose; loss is positive exactly when the close fell. |
| Rsi.RsiOfAverages | app.py:85-86 | 100 - 100/(1 + gain/loss) lies in [0,100] and equals 100*gain/(gain+loss) when loss > 0. It is 0 exactly when gain = 0 < loss. It is 100 exactly when loss = 0 < gain, where rs is infinite. It has no value exactly when both are 0. |
| Rsi.Rsi | app.py:81-87 | The RSI column is as long as the closes. The first period-1 positions have no value, and every defined value lies in [0,100]. |
| Rsi.AvgGainAt | app.py:83 | The mean gain over a full window is non-negative. |
| Rsi.AvgLossAt | app.py:84 | The mean loss over a full window is non-negative. |
| Rsi.RsiAtFullWindow | app.py:83-86 | Once the window is full, the RSI is the ratio formula applied to the window's mean gain and mean loss. |
| Rsi.GainWindowPositive | app.py:83 | The window's mean gain is positive exactly when some close in the window rose. |
| Rsi.LossWindowPositive | app.py:84 | The window's mean loss is positive exactly when some close in the window fell. |
| Rsi.RsiDefinedIff | app.py:82-86 | The RSI has a value exactly when the window is full and some close in it moved. |
| Rsi.RsiHundredIff | app.py:82-86 | The RSI is 100 exactly when the full window contains a rise and no fall. |
| Rsi.RsiZeroIff | app.py:82-86 | The RSI is 0 exactly when the full window contains a fall and no rise. |
| Rsi.RsiOfConstant | app.py:82-86 | On a constant close series, the RSI never has a value. |
| Rsi.RsiOfStrictlyIncreasing | app.py:82-86 | On a strictly rising series, the RSI is 100 from position max(period-1, 1) on. |
| Rsi.RsiWarmUpExample | app.py:82-86 | With period 3, [1,2,3] gives [_, _, 100]: the first full window already has a value. |
| Macd.Alpha | app.py:96-97 | For span >= 1, the smoothing factor 2/(span+1) lies in (0,1]. |
| Macd.EmaAt | app.py:96 | With `adjust=False` the average at position 0 is the first input itself. Each later position takes one smoothing step from the previous average. |
| Macd.EmaPrefix | app.py:96 | The EMA at position k depends only on the inputs up to k. Truncating the input after k does not change it. |
| Macd.EmaExtend | app.py:96 | Appending one input to a prefix appends exactly one EMA value and leaves the earlier values unchanged. |
| Macd.Ema | app.py:96 | The EMA column is as long as its input and has a value at every position, with no warm-up. |
| Macd.EmaOnline | app.py:96 | A single pass is proved equal to the EMA definition. It seeds with the first value and carries the previous average forward. |
| Macd.EmaBoundedAt | app.py:96-97 | If the inputs up to position i lie in [lo,hi], the EMA at i does too, because each step is a convex combination. |
| Macd.EmaWithinHistory | app.py:96-97 | Each EMA value lies between the minimum and the maximum of the inputs seen so far. |
| Macd.EmaOfConstant | app.py:96-97 | A constant input gives an EMA equal to that constant at every position. |
| Macd.EmaShiftAt | app.py:96-97 | Adding c to every input adds c to every EMA value. |
| Macd.MacdOf | app.py:95-100 | The MACD line is the short-span EMA minus the long-span EMA at every position, and the signal line is the signal-span EMA of the MACD line. Both are as long as the closes, and each MACD value is at most the close range seen so far in size. |
| Macd.MacdExample | app.py:95-100 | With spans 1, 3 and 1, the closes [0,3] give MACD [0, 1.5] and signal [0, 1.5]. |
| Macd.DefaultMacd | app.py:95-101 | With the default spans 12, 26 and 9, both lines are as long as the close series. |
| Macd.MacdOfConstant | app.py:95-100 | On a constant close series, MACD and signal are 0 at every position. |
| Macd.MacdShiftInvariant | app.py:95-100 | Adding a constant to every close leaves MACD and signal unchanged. |
| Stochastic.RollingMin | app.py:121 | Position i has a value exactly when i >= period-1. That value is a close of window i-period+1..i that no close in the window undercuts. |
| Stochastic.RollingMax | app.py:122 | Position i has a value exactly when i >= period-1. That value is a close of window i-period+1..i that no close in the window exceeds. |
| Stochastic.StochasticOf | app.py:123 | It has a value exactly when both bounds exist and differ. The value lies in [0,100]. It is 100 exactly when the close is the maximum and 0 exactly when the close is the minimum. Between them it is the close's position in the range: value times (max - min) equals 100 times (close - min), which fixes the close given the value. |
| Stochastic.Stochastic | app.py:120-124 | The column is as long as the closes. The first period-1 positions have no value, and every value lies in [0,100]. |
| Stochastic.StochasticAtFullWindow | app.py:121-123 | Once the window is full, the rolling minimum and maximum are the window's least and greatest close. The oscillator compares the current close with them. |
| Stochastic.StochasticReading | app.py:121-123 | Wherever the column has a value, it reads back the close's place between the window's minimum and maximum: value times (max - min) equals 100 times (close - min). |
| Stochastic.StochasticExample | app.py:120-124 | With period 3, [0,4,1] gives [_, _, 25]: the close 1 sits a quarter of the way from 0 to 4. |
| Stochastic.StochasticDefinedIff | app.py:121-123 | The oscillator has a value exactly when the window is full and some close in it differs from the current close. |
| Stochastic.StochasticHundredIff | app.py:121-123 | The oscillator is 100 exactly when no close in the full window is above the current close and some close in it is below. |
| Stochastic.StochasticZeroIff | app.py:121-123 | The oscillator is 0 exactly when no close in the full window is below the current close and some close in it is above. |
| Stochastic.StochasticOfStrictlyIncreasing | app.py:120-124 | With period >= 2, a strictly rising series gives 100 at every defined position. |
| Stochastic.StochasticOfConstant | app.py:120-124 | A flat close series gives no value anywhere, because every window is 0/0. |
| Columns.FlattenName | app.py:24 | The name is the field alone exactly when the second level is the ticker. Otherwise it is the field, then `_`, then the second level. The field is always a prefix of the name. |
| Columns.Flatten | app.py:23-24 | A two-level header becomes one name per pair, in order. A plain header is left as it is. |
| Columns.FlattenRecoversSecondLevel | app.py:23-24 | Round trip: each flattened name and its field give back the pair's second level. |
| Columns.FlattenConcat | app.py:23-24 | Flattening the concatenation of two headers gives the concatenation of their flattenings, so column order is kept. |
| Columns.ColumnPosition | app.py:50 | Looking a name up in the header finds nothing exactly when no column carries it. Otherwise it finds the first column that does. |
| Columns.DateColumnName | app.py:20-24 | For any non-empty ticker, the index column ("Date", "") becomes `Date_`, the name the charts read. |
| Columns.FlattenExample | app.py:23-24 | For `BTC-USD`, the header [(Date,""), (Close,BTC-USD), (Volume,BTC-USD)] becomes [Date_, Close, Volume]. |
| Dashboard.LoadPage | app.py:23-76 | An empty table gives the warning. A non-empty table lacking `Date_` or `Close` after flattening fails at the close chart, before any indicator. One that has both but lacks `Volume` fails at the volume chart, after the two moving averages of its first `Close` column are computed. Otherwise every indicator is computed from the first column named `Close`, which has one value per row. |
| Dashboard.LoadPageOfDownload | app.py:23-76 | For any non-empty ticker, a header of ("Date", ""), ("Close", ticker) and ("Volume", ticker) reaches every indicator, and they are computed from the close column. |
| Dashboard.LoadPageWithoutVolume | app.py:47-76 | A header of ("Date", "") and ("Close", ticker) with no volume fails at the volume chart, with both moving averages of the closes computed and no RSI, MACD or stochastic. |
| Dashboard.LoadPageOfOtherTicker | app.py:23-50 | If the second level is `BTC-USD` but the typed ticker is `btc-usd`, the close column is named `Close_BTC-USD`, and the page fails before any indicator. |
| Dashboard.LoadPageOfFlatHeader | app.py:23-50 | A plain header ["Date", "Close", "Volume"] is not flattened, so there is no `Date_` column and the page fails before any indicator. |
| Dashboard.BuildPage | app.py:30-125 | An empty download gives the warning and no columns. Otherwise every column is aligned with the closes, each moving average has its w-1 warm-up, RSI and stochastic have their warm-ups, and RSI and stochastic lie in [0,100]. |

## Left out

- Streamlit is left out: page setup, sidebar inputs, slider ranges, warnings
  as text, tables and `describe()` summaries. It is presentation with no
  behaviour to state. Windows and periods are only required to be at least 1.
  pandas rejects negative windows, and the sliders never go below 5.
- Plotly chart construction and rendering are left out. They hand columns
  to a library that is not part of this model.
- `yf.download` and the `@st.cache_data` memoisation are left out. They are
  a network client and framework caching. The download is an input to
  `Dashboard.LoadPage`: a header with one column of values per name.
- `main.py` is left out: the download script, its `RuntimeError` on an
  empty result, CSV writing and prints. It is I/O with a single guard.
- IEEE-754 arithmetic is left out: rounding, NaN and infinity propagation,
  signed zeros, and the compensated running sum pandas uses. The model
  computes in exact rationals, and writes the infinite and `0 / 0` cases out
  explicitly.
- NaN values inside the downloaded close series are left out. The close
  series is assumed fully defined.
- Idempotence and determinism need no lemma. Every member is a pure
  function of its inputs.
- The stochastic oscillator is left on closes only. The code never reads
  the low and high series for it, so the conventional high/low oscillator is
  not modelled.
- Rsi.Rsi: its own contract states only the warm-up and the bounds. When it
  is defined, 0 or 100 is stated by the lemmas that follow it.
- Dashboard.LoadPage: it does not say which exception a missing column
  raises, or, when both `Date_` and `Close` are missing, which of them the
  close chart reports first. The page records how far the run got: nothing
  computed when `Date_` or `Close` is missing, and only the two moving
  averages, already drawn, when just `Volume` is missing. Column values are
  reals, so the date and volume columns only stand for their names and
  lengths. A header with two columns named `Close` would make `data["Close"]`
  a table rather than a series. The model takes the first one instead; a
  header from a download of one ticker cannot produce that.

=== FILE: columns.dfy ===
/** The header flattening in `load_data`: the downloaded table has a
    two-level column index of (field, ticker) pairs, and the dashboard wants
    one name per column. */
module Columns {
  import opened Optional

  /** A table's column index: plain names, or two-level (field, second) pairs. */
  datatype ColumnIndex = Flat(names: seq<string>) | TwoLevel(pairs: seq<(string, string)>)

  /** One header pair: the field alone when its second level is the
      requested ticker, otherwise field and second level joined by `_`. The
      field is always a prefix of the name, and what follows it gives the
      second level back. */
  function FlattenName(field: string, second: string, ticker: string): (name: string)
    ensures |name| >= |field| && name[..|field|] == field
    ensures name == field <==> second == ticker
    ensures second != ticker ==> |name| == |field| + 1 + |second| && name[|field|] == '_' && name[|field| + 1..] == second
  {
    if second == ticker then field else field + "_" + second
  }

  /** The second level a flattened name came from, given its field and the ticker. */
  function SecondLevel(name: string, field: string, ticker: string): string
    requires |name| >= |field|
  {
    if |name| == |field| then ticker else name[|field| + 1..]
  }

  /** `data.columns` after `load_data`: a two-level index becomes one name per
      pair, in order; a plain index is left as it is. */
  function Flatten(cols: ColumnIndex, ticker: string): (names: seq<string>)
    ensures cols.Flat? ==> names == cols.names
    ensures cols.TwoLevel? ==> |names| == |cols.pairs|
    ensures cols.TwoLevel? ==> forall i :: 0 <= i < |names| ==>
      names[i] == FlattenName(cols.pairs[i].0, cols.pairs[i].1, ticker)
  {
    match cols
    case Flat(names) => names
    case TwoLevel(pairs) => FlattenPairs(pairs, ticker)
  }

  function FlattenPairs(pairs: seq<(string, string)>, ticker: string): (names: seq<string>)
    ensures |names| == |pairs|
    ensures forall i :: 0 <= i < |pairs| ==> names[i] == FlattenName(pairs[i].0, pairs[i].1, ticker)
  {
    if |pairs| == 0 then []
    else
      var n := |pairs| - 1;
      FlattenPairs(pairs[..n], ticker) + [FlattenName(pairs[n].0, pairs[n].1, ticker)]
  }

  /** `data[name]`: the position of the first column called `name`, or none
      when the table has no such column (pandas raises `KeyError` then). */
  function ColumnPosition(names: seq<string>, name: string): (k: Option<nat>)
    ensures k.None? <==> name !in names
    ensures k.Some? ==> k.value < |names| && names[k.value] == name
    ensures k.Some? ==> forall j :: 0 <= j < k.value ==> names[j] != name
  {
    if |names| == 0 then None
    else if names[0] == name then Some(0)
    else
      match ColumnPosition(names[1..], name)
      case None => None
      case Some(k) => Some(k + 1)
  }

  /** Round trip: from each flattened name and its field, the second level of
      the original pair comes back. */
  lemma FlattenRecoversSecondLevel(pairs: seq<(string, string)>, ticker: string, i: nat)
    requires i < |pairs|
    ensures |Flatten(TwoLevel(pairs), ticker)[i]| >= |pairs[i].0|
    ensures SecondLevel(Flatten(TwoLevel(pairs), ticker)[i], pairs[i].0, ticker) == pairs[i].1
  {
    var name := Flatten(TwoLevel(pairs), ticker)[i];
    var field := pairs[i].0;
    if pairs[i].1 != ticker {
      assert name[|field| + 1..] == pairs[i].1;
    }
  }

  /** Flattening works column by column, so it keeps the order of a split header. */
  lemma FlattenConcat(a: seq<(string, string)>, b: seq<(string, string)>, ticker: string)
    ensures Flatten(TwoLevel(a + b), ticker) == Flatten(TwoLevel(a), ticker) + Flatten(TwoLevel(b), ticker)
  {
    FlattenPairsConcat(a, b, ticker);
  }

  lemma {:induction false} FlattenPairsConcat(a: seq<(string, string)>, b: seq<(string, string)>, ticker: string)
    ensures FlattenPairs(a + b, ticker) == FlattenPairs(a, ticker) + FlattenPairs(b, ticker)
    decreases |b|
  {
    if |b| == 0 {
      assert a + b == a;
    } else {
      var n := |b| - 1;
      assert (a + b)[..|a + b| - 1] == a + b[..n];
      FlattenPairsConcat(a, b[..n], ticker);
    }
  }

  /** The date column that `reset_index` adds has an empty second level, so
      it is flattened to `Date_`, the name the charts use, for any non-empty
      ticker. */
  lemma DateColumnName(ticker: string)
    requires ticker != ""
    ensures FlattenName("Date", "", ticker) == "Date_"
  {
  }

  /** A typical download for `BTC-USD`: the date column gains a trailing `_`
      and the price fields keep their bare names. */
  lemma FlattenExample()
    ensures Flatten(TwoLevel([("Date", ""), ("Close", "BTC-USD"), ("Volume", "BTC-USD")]), "BTC-USD")
      == ["Date_", "Close", "Volume"]
  {
    var names := Flatten(TwoLevel([("Date", ""), ("Close", "BTC-USD"), ("Volume", "BTC-USD")]), "BTC-USD");
    assert names[0] == "Date" + "_" + "";
    assert "Date" + "_" + "" == "Date_";
    assert names[1] == "Close" && names[2] == "Volume";
  }
}

=== FILE: dashboard.dfy ===
/** The indicator part of the dashboard's main branch: an empty download
    shows a warning and computes nothing; otherwise the moving averages, RSI,
    MACD with signal and stochastic columns are derived from the close series. */
module Dashboard {
  import opened Optional
  import MovingAverage
  import Rsi
  import Macd
  import Stochastic
  import Columns

  /** The integer inputs the sidebar provides. */
  datatype Settings = Settings(maShort: nat, maLong: nat, rsiPeriod: nat)

  /** The close series with every derived column the page adds to it. */
  datatype IndicatorFrame = IndicatorFrame(
    close: seq<real>,
    maShort: seq<Option<real>>,
    maLong: seq<Option<real>>,
    rsi: seq<Option<real>>,
    macd: seq<real>,
    signal: seq<real>,
    stoch: seq<Option<real>>)

  /** The two moving-average columns, the only indicators the page computes
      before it draws the volume chart. */
  datatype MovingAverages = MovingAverages(maShort: seq<Option<real>>, maLong: seq<Option<real>>)

  /** `MA_Courte` and `MA_Longue` of a close series. */
  function AveragesOf(close: seq<real>, s: Settings): (m: MovingAverages)
    requires s.maShort >= 1 && s.maLong >= 1
    ensures |m.maShort| == |close| && |m.maLong| == |close|
  {
    MovingAverages(MovingAverage.RollingMean(close, s.maShort), MovingAverage.RollingMean(close, s.maLong))
  }

  /** What the page shows below the header: a warning, the error raised when
      a column a chart reads is missing (with the moving averages when they
      were computed before it), or the indicator columns. */
  datatype Page = NoDataWarning | ColumnError(averages: Option<MovingAverages>) | Indicators(frame: IndicatorFrame)

  /** Every derived column is aligned with the close series. */
  predicate Aligned(f: IndicatorFrame)
  {
    var n := |f.close|;
    |f.maShort| == n && |f.maLong| == n && |f.rsi| == n && |f.macd| == n && |f.signal| == n && |f.stoch| == n
  }

  /** The page for a downloaded close series. */
  function BuildPage(close: seq<real>, s: Settings): (p: Page)
    requires s.maShort >= 1 && s.maLong >= 1 && s.rsiPeriod >= 1
    ensures !p.ColumnError?
    ensures p.NoDataWarning? <==> |close| == 0
    ensures p.Indicators? ==> p.frame.close == close && Aligned(p.frame)
    ensures p.Indicators? ==> forall i :: 0 <= i < |close| ==>
      && (p.frame.maShort[i].Some? <==> s.maShort - 1 <= i)
      && (p.frame.maLong[i].Some? <==> s.maLong - 1 <= i)
      && (i < s.rsiPeriod - 1 ==> p.frame.rsi[i] == None)
      && (i < Stochastic.DefaultPeriod - 1 ==> p.frame.stoch[i] == None)
    ensures p.Indicators? ==> forall i :: 0 <= i < |close| ==>
      && (p.frame.rsi[i].Some? ==> 0.0 <= p.frame.rsi[i].value <= 100.0)
      && (p.frame.stoch[i].Some? ==> 0.0 <= p.frame.stoch[i].value <= 100.0)
  {
    if |close| == 0 then NoDataWarning
    else
      var lines := Macd.DefaultMacd(close);
      Indicators(IndicatorFrame(
        close,
        MovingAverage.RollingMean(close, s.maShort),
        MovingAverage.RollingMean(close, s.maLong),
        Rsi.Rsi(close, s.rsiPeriod),
        lines.macd,
        lines.signal,
        Stochastic.Stochastic(close, Stochastic.DefaultPeriod)))
  }

  /** Column `k` is the first one called `name`. */
  ghost predicate FirstNamed(names: seq<string>, k: nat, name: string)
    requires k < |names|
  {
    names[k] == name && forall j :: 0 <= j < k ==> names[j] != name
  }

  /** The page for a downloaded table after `reset_index` and the header
      flattening: `header` names its columns, `cells[k]` holds column `k`,
      and every column has `rows` rows. An empty table gives the warning.
      The close chart then reads `Date_` and `Close`, so a table lacking
      either raises before any indicator is computed. The moving averages
      come next, then the volume chart reads `Volume`, so a table lacking
      only that raises with the two averages computed. Otherwise the first
      `Close` column feeds `BuildPage`. */
  function LoadPage(header: Columns.ColumnIndex, cells: seq<seq<real>>, rows: nat, ticker: string, s: Settings): (p: Page)
    requires s.maShort >= 1 && s.maLong >= 1 && s.rsiPeriod >= 1
    requires |Columns.Flatten(header, ticker)| == |cells|
    requires forall k :: 0 <= k < |cells| ==> |cells[k]| == rows
    ensures p.NoDataWarning? <==> |cells| == 0 || rows == 0
    ensures var names := Columns.Flatten(header, ticker);
      p.ColumnError? <==> (|cells| > 0 && rows > 0 && ("Date_" !in names || "Close" !in names || "Volume" !in names))
    ensures var names := Columns.Flatten(header, ticker);
      p.ColumnError? ==> (p.averages.Some? <==> "Date_" in names && "Close" in names)
    ensures var names := Columns.Flatten(header, ticker);
      p.ColumnError? && p.averages.Some? ==>
        exists k :: 0 <= k < |cells| && FirstNamed(names, k, "Close") && p.averages.value == AveragesOf(cells[k], s)
    ensures var names := Columns.Flatten(header, ticker);
      p.Indicators? ==> exists k :: 0 <= k < |cells| && FirstNamed(names, k, "Close") && p.frame.close == cells[k]
    ensures p.Indicators? ==> |p.frame.close| == rows && p == BuildPage(p.frame.close, s)
  {
    var names := Columns.Flatten(header, ticker);
    if |cells| == 0 || rows == 0 then NoDataWarning
    else if "Date_" !in names || "Close" !in names then ColumnError(None)
    else
      var close := cells[Columns.ColumnPosition(names, "Close").value];
      if "Volume" !in names then
        ColumnError(Some(AveragesOf(close, s)))
      else
        BuildPage(close, s)
  }

  /** The header a download for `ticker` carries: the date column, then the
      price fields with the ticker as second level. Such a table reaches the
      indicators, and they are computed from its close column. */
  lemma LoadPageOfDownload(ticker: string, dates: seq<real>, close: seq<real>, volume: seq<real>, s: Settings)
    requires s.maShort >= 1 && s.maLong >= 1 && s.rsiPeriod >= 1
    requires ticker != "" && |close| > 0 && |dates| == |close| && |volume| == |close|
    ensures LoadPage(Columns.TwoLevel([("Date", ""), ("Close", ticker), ("Volume", ticker)]), [dates, close, volume],
      |close|, ticker, s) == BuildPage(close, s)
  {
    var names := Columns.Flatten(Columns.TwoLevel([("Date", ""), ("Close", ticker), ("Volume", ticker)]), ticker);
    assert names == ["Date_", "Close", "Volume"] by {
      Columns.DateColumnName(ticker);
    }
    assert Columns.ColumnPosition(names, "Close") == Some(1) by {
      assert names[0] != "Close";
    }
  }

  /** A table without a volume column gets as far as the moving averages of
      its closes, then the volume chart raises. */
  lemma LoadPageWithoutVolume(ticker: string, dates: seq<real>, close: seq<real>, s: Settings)
    requires s.maShort >= 1 && s.maLong >= 1 && s.rsiPeriod >= 1
    requires ticker != "" && |close| > 0 && |dates| == |close|
    ensures LoadPage(Columns.TwoLevel([("Date", ""), ("Close", ticker)]), [dates, close], |close|, ticker, s)
      == ColumnError(Some(AveragesOf(close, s)))
  {
    var names := Columns.Flatten(Columns.TwoLevel([("Date", ""), ("Close", ticker)]), ticker);
    Columns.DateColumnName(ticker);
    assert names == ["Date_", "Close"];
    assert "Volume" !in names by {
      assert "Volume" != "Date_" && "Volume" != "Close";
    }
  }

  /** When the second level is not the typed ticker, the price fields keep a
      suffix, there is no `Close` column, and the page fails before any
      indicator. */
  lemma LoadPageOfOtherTicker(dates: seq<real>, close: seq<real>, volume: seq<real>, s: Settings)
    requires s.maShort >= 1 && s.maLong >= 1 && s.rsiPeriod >= 1
    requires |close| > 0 && |dates| == |close| && |volume| == |close|
    ensures LoadPage(Columns.TwoLevel([("Date", ""), ("Close", "BTC-USD"), ("Volume", "BTC-USD")]), [dates, close, volume],
      |close|, "btc-usd", s) == ColumnError(None)
  {
    var names := Columns.Flatten(Columns.TwoLevel([("Date", ""), ("Close", "BTC-USD"), ("Volume", "BTC-USD")]), "btc-usd");
    assert names[1] == "Close" + "_" + "BTC-USD";
    assert names[1] != "Close" by {
      assert |names[1]| > |"Close"|;
    }
    assert names[0] != "Close" by {
      assert names[0] == "Date" + "_" + "";
    }
    assert names[2] != "Close" by {
      assert names[2] == "Volume" + "_" + "BTC-USD";
      assert names[2][0] != "Close"[0];
    }
  }

  /** A plain header has no flattened `Date_` column, so the page fails
      before any indicator. */
  lemma LoadPageOfFlatHeader(dates: seq<real>, close: seq<real>, volume: seq<real>, s: Settings)
    requires s.maShort >= 1 && s.maLong >= 1 && s.rsiPeriod >= 1
    requires |close| > 0 && |dates| == |close| && |volume| == |close|
    ensures LoadPage(Columns.Flat(["Date", "Close", "Volume"]), [dates, close, volume], |close|, "BTC-USD", s)
      == ColumnError(None)
  {
    assert "Date_" !in ["Date", "Close", "Volume"] by {
      assert "Date_" != "Date" && "Date_" != "Close" && "Date_" != "Volume";
    }
  }
}

=== FILE: macd.dfy ===
/** `compute_macd`: exponential moving averages in pandas' `adjust=False`
    form, their difference, and the signal line smoothing that difference. */
module Macd {
  import opened Series

  const ShortSpan: nat := 12
  const LongSpan: nat := 26
  const SignalSpan: nat := 9

  /** The smoothing factor pandas derives from `span`: 2 / (span + 1). */
  function Alpha(span: nat): (a: real)
    requires span >= 1
    ensures 0.0 < a <= 1.0
  {
    2.0 / (span as real + 1.0)
  }

  /** One smoothing step: move a fraction `a` of the way from `prev` to `x`. */
  function EmaStep(a: real, x: real, prev: real): real
  {
    a * x + (1.0 - a) * prev
  }

  /** Position `i` of `ewm(span=span, adjust=False).mean()`: seeded with the
      first value, then one smoothing step with `Alpha(span)` per input. */
  function EmaAt(xs: seq<real>, span: nat, i: nat): (e: real)
    requires span >= 1 && i < |xs|
    ensures i == 0 ==> e == xs[0]
    decreases i
  {
    if i == 0 then xs[0]
    else EmaStep(Alpha(span), xs[i], EmaAt(xs, span, i - 1))
  }

  /** The whole exponential moving average column: no warm-up, a value at every position. */
  function Ema(xs: seq<real>, span: nat): (e: seq<real>)
    requires span >= 1
    ensures |e| == |xs|
    ensures forall i :: 0 <= i < |xs| ==> e[i] == EmaAt(xs, span, i)
  {
    seq(|xs|, i requires 0 <= i < |xs| => EmaAt(xs, span, i))
  }

  /** The loop pandas runs: carry the previous average forward. */
  method EmaOnline(xs: seq<real>, span: nat) returns (e: seq<real>)
    requires span >= 1
    ensures e == Ema(xs, span)
  {
    e := [];
    if |xs| == 0 {
      return;
    }
    var a := Alpha(span);
    var last := xs[0];
    e := [last];
    var i := 1;
    while i < |xs|
      invariant 1 <= i <= |xs|
      invariant e == Ema(xs[..i], span)
      invariant last == EmaAt(xs, span, i - 1)
    {
      EmaExtend(xs, span, i);
      last := EmaStep(a, xs[i], last);
      e := e + [last];
      i := i + 1;
    }
    assert xs[..|xs|] == xs;
  }

  /** The average over a longer prefix extends the one over the shorter prefix
      by one position; earlier positions do not depend on later inputs. */
  lemma EmaExtend(xs: seq<real>, span: nat, i: nat)
    requires span >= 1 && 1 <= i < |xs|
    ensures Ema(xs[..i + 1], span) == Ema(xs[..i], span) + [EmaAt(xs, span, i)]
  {
    var longer, shorter := Ema(xs[..i + 1], span), Ema(xs[..i], span);
    forall k | 0 <= k < i
      ensures longer[k] == shorter[k]
    {
      EmaPrefix(xs, span, i + 1, k);
      EmaPrefix(xs, span, i, k);
    }
    assert longer[i] == EmaAt(xs, span, i) by {
      EmaPrefix(xs, span, i + 1, i);
    }
    assert longer == shorter + [EmaAt(xs, span, i)];
  }

  /** The average at `k` only reads inputs up to `k`. */
  lemma {:induction false} EmaPrefix(xs: seq<real>, span: nat, n: nat, k: nat)
    requires span >= 1 && k < n <= |xs|
    ensures EmaAt(xs[..n], span, k) == EmaAt(xs, span, k)
    decreases k
  {
    if k > 0 {
      EmaPrefix(xs, span, n, k - 1);
    }
  }

  /** Convex combination: a point between two values in `[lo, hi]` stays in `[lo, hi]`. */
  lemma ConvexStep(a: real, x: real, y: real, lo: real, hi: real)
    requires 0.0 <= a <= 1.0 && lo <= x <= hi && lo <= y <= hi
    ensures lo <= EmaStep(a, x, y) <= hi
  {
    ProductNonNegative(a, x - lo);
    ProductNonNegative(1.0 - a, y - lo);
    ProductNonNegative(a, hi - x);
    ProductNonNegative(1.0 - a, hi - y);
    assert a * x + (1.0 - a) * y - lo == a * (x - lo) + (1.0 - a) * (y - lo);
    assert hi - (a * x + (1.0 - a) * y) == a * (hi - x) + (1.0 - a) * (hi - y);
  }

  lemma ProductNonNegative(p: real, q: real)
    requires p >= 0.0 && q >= 0.0
    ensures p * q >= 0.0
  {
  }

  /** If the inputs up to `i` lie in `[lo, hi]`, so does the average at `i`. */
  lemma {:induction false} EmaBoundedAt(xs: seq<real>, span: nat, lo: real, hi: real, i: nat)
    requires span >= 1 && i < |xs|
    requires forall j :: 0 <= j <= i ==> lo <= xs[j] <= hi
    ensures lo <= EmaAt(xs, span, i) <= hi
    decreases i
  {
    if i > 0 {
      EmaBoundedAt(xs, span, lo, hi, i - 1);
      EmaStepBounded(xs, span, lo, hi, i);
    }
  }

  lemma EmaStepBounded(xs: seq<real>, span: nat, lo: real, hi: real, i: nat)
    requires span >= 1 && 1 <= i < |xs|
    requires lo <= xs[i] <= hi && lo <= EmaAt(xs, span, i - 1) <= hi
    ensures lo <= EmaAt(xs, span, i) <= hi
  {
    ConvexStep(Alpha(span), xs[i], EmaAt(xs, span, i - 1), lo, hi);
  }

  /** Each average lies between the smallest and largest input seen so far. */
  lemma EmaWithinHistory(xs: seq<real>, span: nat, i: nat)
    requires span >= 1 && i < |xs|
    ensures Min(xs[..i + 1]) <= Ema(xs, span)[i] <= Max(xs[..i + 1])
  {
    var seen := xs[..i + 1];
    assert forall j :: 0 <= j <= i ==> xs[j] == seen[j];
    EmaBoundedAt(xs, span, Min(seen), Max(seen), i);
  }

  /** A constant input gives that constant at every position. */
  lemma EmaOfConstant(xs: seq<real>, span: nat, c: real)
    requires span >= 1 && ConstantAt(xs, c)
    ensures ConstantAt(Ema(xs, span), c)
  {
    forall i | 0 <= i < |xs|
      ensures Ema(xs, span)[i] == c
    {
      EmaBoundedAt(xs, span, c, c, i);
    }
  }

  /** Shifting the input shifts the average by the same amount. */
  lemma {:induction false} EmaShiftAt(xs: seq<real>, span: nat, c: real, i: nat)
    requires span >= 1 && i < |xs|
    ensures EmaAt(Shift(xs, c), span, i) == EmaAt(xs, span, i) + c
    decreases i
  {
    if i > 0 {
      EmaShiftAt(xs, span, c, i - 1);
      EmaShiftStep(xs, span, c, i);
    }
  }

  lemma EmaShiftStep(xs: seq<real>, span: nat, c: real, i: nat)
    requires span >= 1 && 1 <= i < |xs|
    requires EmaAt(Shift(xs, c), span, i - 1) == EmaAt(xs, span, i - 1) + c
    ensures EmaAt(Shift(xs, c), span, i) == EmaAt(xs, span, i) + c
  {
    var ys := Shift(xs, c);
    AffineShift(Alpha(span), xs[i], EmaAt(xs, span, i - 1), ys[i], EmaAt(ys, span, i - 1), c,
      EmaAt(ys, span, i), EmaAt(xs, span, i));
  }

  /** A weighted average of two shifted values is the shifted weighted average. */
  lemma AffineShift(a: real, x: real, p: real, sx: real, sp: real, c: real, shifted: real, plain: real)
    requires sx == x + c && sp == p + c
    requires shifted == EmaStep(a, sx, sp)
    requires plain == EmaStep(a, x, p)
    ensures shifted == plain + c
  {
  }

  /** The MACD line and its signal line, each as long as the close series. */
  datatype MacdLines = MacdLines(macd: seq<real>, signal: seq<real>)

  /** `compute_macd(series, short_period, long_period, signal_period)`: the
      MACD line is the fast EMA minus the slow one, the signal line is the EMA
      of the MACD line, every position has a value, and the MACD line never
      strays further from 0 than the close range seen so far. */
  function MacdOf(xs: seq<real>, shortSpan: nat, longSpan: nat, signalSpan: nat): (r: MacdLines)
    requires shortSpan >= 1 && longSpan >= 1 && signalSpan >= 1
    ensures |r.macd| == |xs| && |r.signal| == |xs|
    ensures forall i :: 0 <= i < |xs| ==> r.macd[i] == Ema(xs, shortSpan)[i] - Ema(xs, longSpan)[i]
    ensures r.signal == Ema(r.macd, signalSpan)
    ensures forall i :: 0 <= i < |xs| ==>
      -(Max(xs[..i + 1]) - Min(xs[..i + 1])) <= r.macd[i] <= Max(xs[..i + 1]) - Min(xs[..i + 1])
  {
    var fast := Ema(xs, shortSpan);
    var slow := Ema(xs, longSpan);
    var macd := seq(|xs|, i requires 0 <= i < |xs| => fast[i] - slow[i]);
    assert forall i :: 0 <= i < |xs| ==>
      -(Max(xs[..i + 1]) - Min(xs[..i + 1])) <= macd[i] <= Max(xs[..i + 1]) - Min(xs[..i + 1]) by {
      forall i | 0 <= i < |xs|
        ensures -(Max(xs[..i + 1]) - Min(xs[..i + 1])) <= macd[i] <= Max(xs[..i + 1]) - Min(xs[..i + 1])
      {
        EmaWithinHistory(xs, shortSpan, i);
        EmaWithinHistory(xs, longSpan, i);
      }
    }
    MacdLines(macd, Ema(macd, signalSpan))
  }

  /** `compute_macd` with its defaults 12, 26 and 9. */
  function DefaultMacd(xs: seq<real>): (r: MacdLines)
    ensures |r.macd| == |xs| && |r.signal| == |xs|
  {
    MacdOf(xs, ShortSpan, LongSpan, SignalSpan)
  }

  /** Two closes 0 and 3 with spans 1, 3 and 1: the fast EMA follows the
      closes, the slow one moves halfway, so MACD and signal are both
      `[0, 1.5]`. */
  lemma MacdExample()
    ensures MacdOf([0.0, 3.0], 1, 3, 1) == MacdLines([0.0, 1.5], [0.0, 1.5])
  {
    var xs := [0.0, 3.0];
    assert EmaAt(xs, 1, 1) == 3.0;
    assert EmaAt(xs, 3, 1) == 1.5;
    var r := MacdOf(xs, 1, 3, 1);
    assert r.macd == [0.0, 1.5];
    assert EmaAt(r.macd, 1, 1) == 1.5;
  }

  /** A flat close series has MACD and signal identically 0. */
  lemma MacdOfConstant(xs: seq<real>, shortSpan: nat, longSpan: nat, signalSpan: nat, c: real)
    requires shortSpan >= 1 && longSpan >= 1 && signalSpan >= 1 && ConstantAt(xs, c)
    ensures ConstantAt(MacdOf(xs, shortSpan, longSpan, signalSpan).macd, 0.0)
    ensures ConstantAt(MacdOf(xs, shortSpan, longSpan, signalSpan).signal, 0.0)
  {
    var r := MacdOf(xs, shortSpan, longSpan, signalSpan);
    EmaOfConstant(xs, shortSpan, c);
    EmaOfConstant(xs, longSpan, c);
    assert ConstantAt(r.macd, 0.0);
    EmaOfConstant(r.macd, signalSpan, 0.0);
  }

  /** Adding a constant to every close leaves MACD and signal unchanged. */
  lemma MacdShiftInvariant(xs: seq<real>, shortSpan: nat, longSpan: nat, signalSpan: nat, c: real)
    requires shortSpan >= 1 && longSpan >= 1 && signalSpan >= 1
    ensures MacdOf(Shift(xs, c), shortSpan, longSpan, signalSpan) == MacdOf(xs, shortSpan, longSpan, signalSpan)
  {
    var r := MacdOf(xs, shortSpan, longSpan, signalSpan);
    var q := MacdOf(Shift(xs, c), shortSpan, longSpan, signalSpan);
    forall i | 0 <= i < |xs|
      ensures q.macd[i] == r.macd[i]
    {
      EmaShiftAt(xs, shortSpan, c, i);
      EmaShiftAt(xs, longSpan, c, i);
    }
    assert q.macd == r.macd;
  }
}

=== FILE: moving_average.dfy ===
/** pandas' `rolling(w).mean()` over the close series: the trailing simple
    moving average behind the `MA_Courte` and `MA_Longue` columns. */
module MovingAverage {
  import opened Optional
  import opened Series

  /** Trailing mean with window `w`. A position has a value only once `w`
      observations exist (pandas' default `min_periods == w`), so a window
      longer than the series leaves every position undefined. */
  function RollingMean(xs: seq<real>, w: nat): (r: seq<Option<real>>)
    requires w >= 1
    ensures |r| == |xs|
    ensures forall i :: 0 <= i < |xs| ==> (r[i].Some? <==> w - 1 <= i)
    ensures forall i :: w - 1 <= i < |xs| ==> r[i] == Some(Sum(xs[i - w + 1..i + 1]) / (w as real))
  {
    seq(|xs|, i requires 0 <= i < |xs| => if i < w - 1 then None else Some(Sum(xs[i - w + 1..i + 1]) / (w as real)))
  }

  /** The online algorithm pandas uses: keep a running sum, add the entering
      close and subtract the one leaving the window. */
  method RollingMeanOnline(xs: seq<real>, w: nat) returns (r: seq<Option<real>>)
    requires w >= 1
    ensures r == RollingMean(xs, w)
  {
    r := [];
    var total := 0.0;
    var i := 0;
    while i < |xs|
      invariant 0 <= i <= |xs|
      invariant r == RollingMean(xs[..i], w)
      invariant total == Sum(xs[(if i < w then 0 else i - w)..i])
    {
      total := SlideWindow(xs, w, i, total);
      RollingMeanExtend(xs, w, i);
      r := r + [if i + 1 < w then None else Some(total / (w as real))];
      i := i + 1;
    }
    assert xs[..|xs|] == xs;
  }

  /** One step of the running sum: the close at `i` enters, and the one that
      falls out of the window leaves. */
  function SlideWindow(xs: seq<real>, w: nat, i: nat, total: real): (next: real)
    requires w >= 1 && i < |xs|
    requires total == Sum(xs[(if i < w then 0 else i - w)..i])
    ensures next == Sum(xs[(if i + 1 < w then 0 else i + 1 - w)..i + 1])
  {
    var lo := if i < w then 0 else i - w;
    SumExtendBack(xs, lo, i);
    if i >= w then
      SumDropFront(xs, i - w, i + 1);
      total + xs[i] - xs[i - w]
    else
      total + xs[i]
  }

  /** The mean over a longer prefix extends the mean over the shorter one by one position. */
  lemma RollingMeanExtend(xs: seq<real>, w: nat, i: nat)
    requires w >= 1 && i < |xs|
    ensures RollingMean(xs[..i + 1], w) ==
      RollingMean(xs[..i], w) + [if i + 1 < w then None else Some(Sum(xs[i + 1 - w..i + 1]) / (w as real))]
  {
    var longer := RollingMean(xs[..i + 1], w);
    var shorter := RollingMean(xs[..i], w);
    var step := [if i + 1 < w then None else Some(Sum(xs[i + 1 - w..i + 1]) / (w as real))];
    forall k | 0 <= k < i
      ensures longer[k] == shorter[k]
    {
      if k >= w - 1 {
        assert xs[..i + 1][k - w + 1..k + 1] == xs[..i][k - w + 1..k + 1];
      }
    }
    assert longer[i] == step[0] by {
      if i >= w - 1 {
        assert xs[..i + 1][i - w + 1..i + 1] == xs[i + 1 - w..i + 1];
      }
    }
    assert |longer| == |shorter| + 1;
    assert longer == shorter + step;
  }

  /** Every defined average lies between the smallest and largest close of its window. */
  lemma RollingMeanWithinWindow(xs: seq<real>, w: nat, i: nat)
    requires w >= 1 && w - 1 <= i < |xs|
    ensures Min(xs[i - w + 1..i + 1]) <= RollingMean(xs, w)[i].value <= Max(xs[i - w + 1..i + 1])
  {
    var win := xs[i - w + 1..i + 1];
    assert |win| == w;
    MeanOfWindowBetween(win);
  }

  /** The mean of a non-empty window lies between its minimum and maximum. */
  lemma MeanOfWindowBetween(win: seq<real>)
    requires |win| > 0
    ensures Min(win) <= Sum(win) / (|win| as real) <= Max(win)
  {
    SumBounds(win, Min(win), Max(win));
    MeanBetween(Sum(win), |win|, Min(win), Max(win));
  }

  /** A total between `n` copies of `lo` and `n` copies of `hi` averages to between them. */
  lemma MeanBetween(total: real, n: nat, lo: real, hi: real)
    requires n > 0 && Repeat(n, lo) <= total <= Repeat(n, hi)
    ensures lo <= total / (n as real) <= hi
  {
    RepeatIsProduct(n, lo);
    RepeatIsProduct(n, hi);
    ScaledBetween(total, n as real, lo, hi);
  }

  lemma ScaledBetween(total: real, n: real, lo: real, hi: real)
    requires n > 0.0 && n * lo <= total <= n * hi
    ensures lo <= total / n <= hi
  {
  }

  /** The rolling mean of a column with no negative entry is never negative. */
  lemma RollingMeanNonNegative(xs: seq<real>, w: nat)
    requires w >= 1
    requires forall j :: 0 <= j < |xs| ==> xs[j] >= 0.0
    ensures forall i :: 0 <= i < |xs| && RollingMean(xs, w)[i].Some? ==>
      RollingMean(xs, w)[i].value >= 0.0
  {
    forall i | w - 1 <= i < |xs|
      ensures RollingMean(xs, w)[i].value >= 0.0
    {
      SumNonNegative(xs[i - w + 1..i + 1]);
    }
  }

  /** Moving every close by `c` moves every defined average by `c`. */
  lemma RollingMeanShift(xs: seq<real>, w: nat, c: real, i: nat)
    requires w >= 1 && w - 1 <= i < |xs|
    ensures RollingMean(Shift(xs, c), w)[i] == Some(RollingMean(xs, w)[i].value + c)
  {
    var win := xs[i - w + 1..i + 1];
    var shifted := Shift(xs, c)[i - w + 1..i + 1];
    assert shifted == Shift(win, c);
    assert Sum(shifted) == Sum(win) + Repeat(w, c) by {
      assert |win| == w;
      SumShift(win, c);
    }
    MeanShift(Sum(win), Sum(shifted), w, c,
      RollingMean(xs, w)[i].value, RollingMean(Shift(xs, c), w)[i].value);
  }

  /** Adding `n` copies of `c` to a total of `n` terms adds `c` to its mean. */
  lemma MeanShift(total: real, moved: real, n: nat, c: real, mean: real, movedMean: real)
    requires n > 0 && moved == total + Repeat(n, c)
    requires mean == total / (n as real) && movedMean == moved / (n as real)
    ensures movedMean == mean + c
  {
    RepeatIsProduct(n, c);
  }

  /** A constant close series has that constant as its moving average wherever defined. */
  lemma RollingMeanOfConstant(xs: seq<real>, w: nat, c: real)
    requires w >= 1 && ConstantAt(xs, c)
    ensures forall i :: w - 1 <= i < |xs| ==> RollingMean(xs, w)[i] == Some(c)
  {
    forall i | w - 1 <= i < |xs|
      ensures RollingMean(xs, w)[i] == Some(c)
    {
      RollingMeanWithinWindow(xs, w, i);
      var win := xs[i - w + 1..i + 1];
      assert win[0] == c;
      assert Min(win) == c && Max(win) == c;
    }
  }

  /** The worked example `SMA([1,2,3,4,5], 3) = [_, _, 2, 3, 4]`. */
  lemma RollingMeanExample()
    ensures RollingMean([1.0, 2.0, 3.0, 4.0, 5.0], 3) == [None, None, Some(2.0), Some(3.0), Some(4.0)]
  {
    var xs := [1.0, 2.0, 3.0, 4.0, 5.0];
    var r := RollingMean(xs, 3);
    assert r[2] == Some(2.0) by {
      assert xs[0..3] == [1.0, 2.0, 3.0];
      SumOfThree(1.0, 2.0, 3.0);
    }
    assert r[3] == Some(3.0) by {
      assert xs[1..4] == [2.0, 3.0, 4.0];
      SumOfThree(2.0, 3.0, 4.0);
    }
    assert r[4] == Some(4.0) by {
      assert xs[2..5] == [3.0, 4.0, 5.0];
      SumOfThree(3.0, 4.0, 5.0);
    }
    assert r == [None, None, Some(2.0), Some(3.0), Some(4.0)];
  }
}

=== FILE: optional.dfy ===
/** An explicit "no value" marker for series positions, in place of the
    floating-point NaN that pandas leaves in warm-up and undefined cells. */
module Optional {

  datatype Option<+T> = None | Some(value: T)
}

=== FILE: rsi.dfy ===
/** `compute_rsi`: Cutler's relative strength index, a simple moving average
    of up-moves against one of down-moves (no Wilder smoothing). */
module Rsi {
  import opened Optional
  import opened Series
  import MovingAverage

  /** A close rose against the previous one. */
  ghost predicate Rises(xs: seq<real>, j: int)
    requires 0 <= j < |xs|
  {
    j >= 1 && xs[j - 1] < xs[j]
  }

  /** A close fell against the previous one. */
  ghost predicate Falls(xs: seq<real>, j: int)
    requires 0 <= j < |xs|
  {
    j >= 1 && xs[j - 1] > xs[j]
  }

  /** `series.diff(1)`: the first difference, with no value at position 0. */
  function Diff(xs: seq<real>): (d: seq<Option<real>>)
    ensures |d| == |xs|
    ensures |xs| > 0 ==> d[0] == None
    ensures forall j :: 1 <= j < |xs| ==> d[j].Some? && xs[j] == xs[j - 1] + d[j].value
  {
    seq(|xs|, i requires 0 <= i < |xs| => if i == 0 then None else Some(xs[i] - xs[i - 1]))
  }

  /** `delta.where(delta > 0, 0)`: the comparison is false for the missing
      first difference, so it becomes 0 rather than staying undefined. */
  function Gains(xs: seq<real>): (g: seq<real>)
    ensures |g| == |xs|
    ensures |xs| > 0 ==> g[0] == 0.0
    ensures forall j {:trigger g[j]} :: 0 <= j < |xs| ==> g[j] >= 0.0
    ensures forall j {:trigger g[j]} :: 1 <= j < |xs| ==> g[j] >= xs[j] - xs[j - 1]
    ensures forall j {:trigger g[j]} :: 1 <= j < |xs| ==> g[j] == 0.0 || g[j] == xs[j] - xs[j - 1]
  {
    var d := Diff(xs);
    seq(|xs|, j requires 0 <= j < |xs| => if d[j].Some? && d[j].value > 0.0 then d[j].value else 0.0)
  }

  /** `-delta.where(delta < 0, 0)`: the size of each down-move, 0 otherwise
      and at the missing first difference. */
  function Losses(xs: seq<real>): (l: seq<real>)
    ensures |l| == |xs|
    ensures |xs| > 0 ==> l[0] == 0.0
    ensures forall j {:trigger l[j]} :: 0 <= j < |xs| ==> l[j] >= 0.0
    ensures forall j {:trigger l[j]} :: 1 <= j < |xs| ==> l[j] >= xs[j - 1] - xs[j]
    ensures forall j {:trigger l[j]} :: 1 <= j < |xs| ==> l[j] == 0.0 || l[j] == xs[j - 1] - xs[j]
  {
    var d := Diff(xs);
    seq(|xs|, j requires 0 <= j < |xs| => if d[j].Some? && d[j].value < 0.0 then -d[j].value else 0.0)
  }

  /** Gains and losses split each first difference into its positive and
      negative parts, and never both move at once. */
  lemma GainsLossesSplitDiff(xs: seq<real>, j: nat)
    requires 1 <= j < |xs|
    ensures Gains(xs)[j] - Losses(xs)[j] == Diff(xs)[j].value
    ensures Gains(xs)[j] == 0.0 || Losses(xs)[j] == 0.0
    ensures Gains(xs)[j] > 0.0 <==> Rises(xs, j)
    ensures Losses(xs)[j] > 0.0 <==> Falls(xs, j)
  {
  }

  /** At position 0 the difference is missing, yet gain and loss are both 0
      there, not missing: this is what lets the first full window have a value. */
  lemma FirstDifferenceFilled(xs: seq<real>)
    requires |xs| > 0
    ensures Diff(xs)[0] == None
    ensures Gains(xs)[0] == 0.0 && Losses(xs)[0] == 0.0
  {
  }

  /** `100 - 100 / (1 + rs)` with `rs = gain / loss`. Float division makes
      `gain / 0` infinite, so the index is 100 there, and `0 / 0` NaN, so it
      has no value when both averages are 0. */
  function RsiOfAverages(gain: real, loss: real): (v: Option<real>)
    requires gain >= 0.0 && loss >= 0.0
    ensures v.Some? <==> gain > 0.0 || loss > 0.0
    ensures v.Some? ==> 0.0 <= v.value <= 100.0
    ensures v == Some(0.0) <==> gain == 0.0 && loss > 0.0
    ensures v == Some(100.0) <==> gain > 0.0 && loss == 0.0
    ensures loss > 0.0 ==> v == Some(100.0 * gain / (gain + loss))
  {
    if loss > 0.0 then
      RsiFormula(gain, loss);
      Some(100.0 - 100.0 / (1.0 + gain / loss))
    else if gain > 0.0 then Some(100.0)
    else None
  }

  lemma RsiFormula(gain: real, loss: real)
    requires gain >= 0.0 && loss > 0.0
    ensures 100.0 - 100.0 / (1.0 + gain / loss) == 100.0 * gain / (gain + loss)
  {
    var rs := gain / loss;
    var t := 1.0 + rs;
    var s := gain + loss;
    DivIsQuotient(gain, loss, rs);
    assert t * loss == s;
    var y := 100.0 * loss / s;
    DivIsQuotient(100.0 * loss, s, y);
    ProductChain(y, t, loss, s);
    CancelFactor(y * t, 100.0, loss);
    QuotientIsDiv(100.0, t, y);
    var z := 100.0 * gain / s;
    DivIsQuotient(100.0 * gain, s, z);
    assert (100.0 - y) * s == 100.0 * gain;
    QuotientIsDiv(100.0 * gain, s, 100.0 - y);
  }

  lemma DivIsQuotient(a: real, b: real, q: real)
    requires b != 0.0 && q == a / b
    ensures q * b == a
  {
  }

  lemma ProductChain(y: real, t: real, loss: real, s: real)
    requires t * loss == s && y * s == 100.0 * loss
    ensures (y * t) * loss == 100.0 * loss
  {
    calc {
      (y * t) * loss;
      y * (t * loss);
      y * s;
      100.0 * loss;
    }
  }

  lemma CancelFactor(a: real, b: real, c: real)
    requires c != 0.0 && a * c == b * c
    ensures a == b
  {
    assert (a - b) * c == 0.0;
  }

  lemma QuotientIsDiv(a: real, b: real, q: real)
    requires b != 0.0 && q * b == a
    ensures q == a / b
  {
  }

  /** Pointwise combination of the two rolling averages; an undefined average
      (warm-up) propagates as it would through float arithmetic. */
  function RsiOfMeans(gain: Option<real>, loss: Option<real>): Option<real>
    requires gain.Some? ==> gain.value >= 0.0
    requires loss.Some? ==> loss.value >= 0.0
  {
    if gain.Some? && loss.Some? then RsiOfAverages(gain.value, loss.value) else None
  }

  /** Position-wise `RsiOfMeans` over the two rolling-average columns. */
  function RsiOfMeansSeq(avgGain: seq<Option<real>>, avgLoss: seq<Option<real>>): (r: seq<Option<real>>)
    requires |avgGain| == |avgLoss|
    requires forall i :: 0 <= i < |avgGain| && avgGain[i].Some? ==> avgGain[i].value >= 0.0
    requires forall i :: 0 <= i < |avgLoss| && avgLoss[i].Some? ==> avgLoss[i].value >= 0.0
    ensures |r| == |avgGain|
    ensures forall i :: 0 <= i < |r| ==> r[i] == RsiOfMeans(avgGain[i], avgLoss[i])
  {
    seq(|avgGain|, i requires 0 <= i < |avgGain| => RsiOfMeans(avgGain[i], avgLoss[i]))
  }

  /** `compute_rsi(series, period)`. */
  function Rsi(xs: seq<real>, period: nat): (r: seq<Option<real>>)
    requires period >= 1
    ensures |r| == |xs|
    ensures forall i :: 0 <= i < |xs| && i < period - 1 ==> r[i] == None
    ensures forall i :: 0 <= i < |xs| && r[i].Some? ==> 0.0 <= r[i].value <= 100.0
  {
    var avgGain := MovingAverage.RollingMean(Gains(xs), period);
    var avgLoss := MovingAverage.RollingMean(Losses(xs), period);
    MovingAverage.RollingMeanNonNegative(Gains(xs), period);
    MovingAverage.RollingMeanNonNegative(Losses(xs), period);
    RsiOfMeansSeq(avgGain, avgLoss)
  }

  /** Mean up-move over the full window ending at `i`. */
  function AvgGainAt(xs: seq<real>, period: nat, i: nat): (m: real)
    requires period >= 1 && period - 1 <= i < |xs|
    ensures m >= 0.0
  {
    SumNonNegative(Gains(xs)[i - period + 1..i + 1]);
    Sum(Gains(xs)[i - period + 1..i + 1]) / (period as real)
  }

  /** Mean down-move over the full window ending at `i`. */
  function AvgLossAt(xs: seq<real>, period: nat, i: nat): (m: real)
    requires period >= 1 && period - 1 <= i < |xs|
    ensures m >= 0.0
  {
    SumNonNegative(Losses(xs)[i - period + 1..i + 1]);
    Sum(Losses(xs)[i - period + 1..i + 1]) / (period as real)
  }

  /** Once the window is full, the index is the ratio of the window's mean up-move to its mean down-move. */
  lemma RsiAtFullWindow(xs: seq<real>, period: nat, i: nat)
    requires period >= 1 && period - 1 <= i < |xs|
    ensures Rsi(xs, period)[i] == RsiOfAverages(AvgGainAt(xs, period, i), AvgLossAt(xs, period, i))
  {
    var g, l := Gains(xs), Losses(xs);
    var avgGain := MovingAverage.RollingMean(g, period);
    var avgLoss := MovingAverage.RollingMean(l, period);
    assert avgGain[i] == Some(AvgGainAt(xs, period, i));
    assert avgLoss[i] == Some(AvgLossAt(xs, period, i));
    MovingAverage.RollingMeanNonNegative(g, period);
    MovingAverage.RollingMeanNonNegative(l, period);
    assert Rsi(xs, period) == RsiOfMeansSeq(avgGain, avgLoss);
  }

  /** The window's mean up-move is positive exactly when some close in it rose. */
  lemma GainWindowPositive(xs: seq<real>, period: nat, hi: nat)
    requires period >= 1 && period - 1 <= hi < |xs|
    ensures AvgGainAt(xs, period, hi) > 0.0 <==> exists j :: hi - period + 1 <= j <= hi && Rises(xs, j)
  {
    var total := Sum(Gains(xs)[hi - period + 1..hi + 1]);
    assert total > 0.0 <==> exists j :: hi - period + 1 <= j <= hi && Rises(xs, j) by {
      GainSumPositive(xs, hi - period + 1, hi);
    }
    QuotientPositive(total, period as real, AvgGainAt(xs, period, hi));
  }

  /** The window's mean down-move is positive exactly when some close in it fell. */
  lemma LossWindowPositive(xs: seq<real>, period: nat, hi: nat)
    requires period >= 1 && period - 1 <= hi < |xs|
    ensures AvgLossAt(xs, period, hi) > 0.0 <==> exists j :: hi - period + 1 <= j <= hi && Falls(xs, j)
  {
    var total := Sum(Losses(xs)[hi - period + 1..hi + 1]);
    assert total > 0.0 <==> exists j :: hi - period + 1 <= j <= hi && Falls(xs, j) by {
      LossSumPositive(xs, hi - period + 1, hi);
    }
    QuotientPositive(total, period as real, AvgLossAt(xs, period, hi));
  }

  lemma QuotientPositive(total: real, n: real, q: real)
    requires n > 0.0 && q == total / n
    ensures q > 0.0 <==> total > 0.0
  {
  }

  /** The up-moves of `lo..hi` sum to something positive exactly when some close in it rose. */
  lemma GainSumPositive(xs: seq<real>, lo: nat, hi: nat)
    requires lo <= hi < |xs|
    ensures Sum(Gains(xs)[lo..hi + 1]) > 0.0 <==> exists j :: lo <= j <= hi && Rises(xs, j)
  {
    var win := Gains(xs)[lo..hi + 1];
    SumNonNegative(win);
    if exists j :: lo <= j <= hi && Rises(xs, j) {
      var j :| lo <= j <= hi && Rises(xs, j);
      assert win[j - lo] > 0.0;
    } else {
      forall k | 0 <= k < |win|
        ensures win[k] == 0.0
      {
        assert !Rises(xs, lo + k);
      }
    }
  }

  /** The down-moves of `lo..hi` sum to something positive exactly when some close in it fell. */
  lemma LossSumPositive(xs: seq<real>, lo: nat, hi: nat)
    requires lo <= hi < |xs|
    ensures Sum(Losses(xs)[lo..hi + 1]) > 0.0 <==> exists j :: lo <= j <= hi && Falls(xs, j)
  {
    var win := Losses(xs)[lo..hi + 1];
    SumNonNegative(win);
    if exists j :: lo <= j <= hi && Falls(xs, j) {
      var j :| lo <= j <= hi && Falls(xs, j);
      assert win[j - lo] > 0.0;
    } else {
      forall k | 0 <= k < |win|
        ensures win[k] == 0.0
      {
        assert !Falls(xs, lo + k);
      }
    }
  }

  /** The index has a value exactly when the window is full and some close in
      it moved; a window of unchanged closes is 0/0. */
  lemma RsiDefinedIff(xs: seq<real>, period: nat, i: nat)
    requires period >= 1 && i < |xs|
    ensures Rsi(xs, period)[i].Some? <==>
      period - 1 <= i && exists j :: i - period + 1 <= j <= i && (Rises(xs, j) || Falls(xs, j))
  {
    if period - 1 <= i {
      RsiAtFullWindow(xs, period, i);
      GainWindowPositive(xs, period, i);
      LossWindowPositive(xs, period, i);
    }
  }

  /** The index is 100 exactly when the full window holds a rise and no fall. */
  lemma RsiHundredIff(xs: seq<real>, period: nat, i: nat)
    requires period >= 1 && i < |xs|
    ensures Rsi(xs, period)[i] == Some(100.0) <==>
      && period - 1 <= i
      && (exists j :: i - period + 1 <= j <= i && Rises(xs, j))
      && (forall j :: i - period + 1 <= j <= i ==> !Falls(xs, j))
  {
    if period - 1 <= i {
      RsiAtFullWindow(xs, period, i);
      GainWindowPositive(xs, period, i);
      LossWindowPositive(xs, period, i);
    }
  }

  /** The index is 0 exactly when the full window holds a fall and no rise. */
  lemma RsiZeroIff(xs: seq<real>, period: nat, i: nat)
    requires period >= 1 && i < |xs|
    ensures Rsi(xs, period)[i] == Some(0.0) <==>
      && period - 1 <= i
      && (exists j :: i - period + 1 <= j <= i && Falls(xs, j))
      && (forall j :: i - period + 1 <= j <= i ==> !Rises(xs, j))
  {
    if period - 1 <= i {
      RsiAtFullWindow(xs, period, i);
      GainWindowPositive(xs, period, i);
      LossWindowPositive(xs, period, i);
    }
  }

  /** A constant close series never moves, so the index has no value anywhere. */
  lemma RsiOfConstant(xs: seq<real>, period: nat, c: real)
    requires period >= 1 && ConstantAt(xs, c)
    ensures forall i :: 0 <= i < |xs| ==> Rsi(xs, period)[i] == None
  {
    forall i | 0 <= i < |xs|
      ensures Rsi(xs, period)[i] == None
    {
      RsiDefinedIff(xs, period, i);
      if period - 1 <= i {
        forall j | i - period + 1 <= j <= i
          ensures !Rises(xs, j) && !Falls(xs, j)
        {
          if j >= 1 {
            assert xs[j - 1] == c && xs[j] == c;
          }
        }
      }
    }
  }

  /** On a strictly rising series the index is 100 from position `period - 1`
      on (and from 1 when the period is 1): the forced 0 at position 0 makes
      the first full window, not the one after it, defined. */
  lemma RsiOfStrictlyIncreasing(xs: seq<real>, period: nat)
    requires period >= 1 && StrictlyIncreasing(xs)
    ensures forall i :: period - 1 <= i < |xs| && 1 <= i ==> Rsi(xs, period)[i] == Some(100.0)
  {
    forall i | period - 1 <= i < |xs| && 1 <= i
      ensures Rsi(xs, period)[i] == Some(100.0)
    {
      RsiHundredIff(xs, period, i);
      assert Rises(xs, i);
    }
  }

  /** Three rising closes with period 3: the first full window, at position
      2, already has a value, because the forced 0 at position 0 fills it. */
  lemma RsiWarmUpExample()
    ensures Rsi([1.0, 2.0, 3.0], 3) == [None, None, Some(100.0)]
  {
    var xs := [1.0, 2.0, 3.0];
    assert StrictlyIncreasing(xs);
    RsiOfStrictlyIncreasing(xs, 3);
  }
}

=== FILE: series.dfy ===
/** Vocabulary shared by the trailing-window indicators: sums, minima and
    maxima of a price window, and the shapes of series the lemmas talk about. */
module Series {

  /** Sum of a sequence, peeled from the back so that it grows with a prefix. */
  function Sum(xs: seq<real>): real
  {
    if |xs| == 0 then 0.0 else Sum(xs[..|xs| - 1]) + xs[|xs| - 1]
  }

  /** Smallest element of a non-empty window. */
  function Min(xs: seq<real>): (m: real)
    requires |xs| > 0
    ensures exists j :: 0 <= j < |xs| && xs[j] == m
    ensures forall j :: 0 <= j < |xs| ==> m <= xs[j]
  {
    if |xs| == 1 then xs[0]
    else
      var m' := Min(xs[..|xs| - 1]);
      if xs[|xs| - 1] < m' then xs[|xs| - 1] else m'
  }

  /** Largest element of a non-empty window. */
  function Max(xs: seq<real>): (m: real)
    requires |xs| > 0
    ensures exists j :: 0 <= j < |xs| && xs[j] == m
    ensures forall j :: 0 <= j < |xs| ==> xs[j] <= m
  {
    if |xs| == 1 then xs[0]
    else
      var m' := Max(xs[..|xs| - 1]);
      if xs[|xs| - 1] > m' then xs[|xs| - 1] else m'
  }

  /** `m` is a close of `xs[lo..hi]` (inclusive) that none of them undercuts. */
  ghost predicate IsLeast(xs: seq<real>, lo: int, hi: int, m: real)
    requires 0 <= lo && hi < |xs|
  {
    && (forall j :: lo <= j <= hi ==> m <= xs[j])
    && (exists j :: lo <= j <= hi && xs[j] == m)
  }

  /** `m` is a close of `xs[lo..hi]` (inclusive) that none of them exceeds. */
  ghost predicate IsGreatest(xs: seq<real>, lo: int, hi: int, m: real)
    requires 0 <= lo && hi < |xs|
  {
    && (forall j :: lo <= j <= hi ==> xs[j] <= m)
    && (exists j :: lo <= j <= hi && xs[j] == m)
  }

  /** The minimum of a slice is the least close of that stretch of the series. */
  lemma MinOfSlice(xs: seq<real>, lo: nat, hi: nat)
    requires lo <= hi < |xs|
    ensures IsLeast(xs, lo, hi, Min(xs[lo..hi + 1]))
  {
    var win := xs[lo..hi + 1];
    var k :| 0 <= k < |win| && win[k] == Min(win);
    assert xs[lo + k] == Min(win);
    forall j | lo <= j <= hi
      ensures Min(win) <= xs[j]
    {
      assert win[j - lo] == xs[j];
    }
  }

  /** The maximum of a slice is the greatest close of that stretch of the series. */
  lemma MaxOfSlice(xs: seq<real>, lo: nat, hi: nat)
    requires lo <= hi < |xs|
    ensures IsGreatest(xs, lo, hi, Max(xs[lo..hi + 1]))
  {
    var win := xs[lo..hi + 1];
    var k :| 0 <= k < |win| && win[k] == Max(win);
    assert xs[lo + k] == Max(win);
    forall j | lo <= j <= hi
      ensures xs[j] <= Max(win)
    {
      assert win[j - lo] == xs[j];
    }
  }

  /** Every close equals `c`. */
  ghost predicate ConstantAt(xs: seq<real>, c: real)
  {
    forall j :: 0 <= j < |xs| ==> xs[j] == c
  }

  /** Each close is strictly above every earlier one. */
  ghost predicate StrictlyIncreasing(xs: seq<real>)
  {
    forall j, k :: 0 <= j < k < |xs| ==> xs[j] < xs[k]
  }

  lemma {:induction false} SumCons(x: real, ys: seq<real>)
    ensures Sum([x] + ys) == x + Sum(ys)
    decreases |ys|
  {
    var zs := [x] + ys;
    if |ys| == 0 {
      assert zs[..0] == [];
    } else {
      assert zs[..|zs| - 1] == [x] + ys[..|ys| - 1];
      SumCons(x, ys[..|ys| - 1]);
    }
  }

  /** Sliding a window one step: the sum gains the entering element at the back. */
  lemma SumExtendBack(xs: seq<real>, lo: nat, hi: nat)
    requires lo <= hi < |xs|
    ensures Sum(xs[lo..hi + 1]) == Sum(xs[lo..hi]) + xs[hi]
  {
    assert xs[lo..hi + 1][..hi - lo] == xs[lo..hi];
  }

  /** Sliding a window one step: the sum loses the leaving element at the front. */
  lemma SumDropFront(xs: seq<real>, lo: nat, hi: nat)
    requires lo < hi <= |xs|
    ensures Sum(xs[lo + 1..hi]) == Sum(xs[lo..hi]) - xs[lo]
  {
    assert xs[lo..hi] == [xs[lo]] + xs[lo + 1..hi];
    SumCons(xs[lo], xs[lo + 1..hi]);
  }

  /** Sum of a three-close window, written out. */
  lemma SumOfThree(a: real, b: real, c: real)
    ensures Sum([a, b, c]) == a + b + c
  {
    assert [a, b, c][..2] == [a, b];
    assert [a, b][..1] == [a];
    assert [a][..0] == [];
    assert Sum([a]) == a;
    assert Sum([a, b]) == a + b;
  }

  /** `x` added to itself `k` times, which keeps window bounds free of products. */
  function Repeat(k: nat, x: real): real
  {
    if k == 0 then 0.0 else Repeat(k - 1, x) + x
  }

  lemma {:induction false} RepeatIsProduct(k: nat, x: real)
    ensures Repeat(k, x) == (k as real) * x
  {
    if k > 0 {
      RepeatIsProduct(k - 1, x);
      assert (k as real) * x == ((k - 1) as real) * x + x;
    }
  }

  /** A window of values in `[lo, hi]` sums to between `lo` and `hi` taken once per element. */
  lemma {:induction false} SumBounds(xs: seq<real>, lo: real, hi: real)
    requires forall j :: 0 <= j < |xs| ==> lo <= xs[j] <= hi
    ensures Repeat(|xs|, lo) <= Sum(xs) <= Repeat(|xs|, hi)
    decreases |xs|
  {
    if |xs| > 0 {
      SumBounds(xs[..|xs| - 1], lo, hi);
    }
  }

  /** A sum of non-negative terms is non-negative, and zero exactly when every term is. */
  lemma {:induction false} SumNonNegative(xs: seq<real>)
    requires forall j :: 0 <= j < |xs| ==> xs[j] >= 0.0
    ensures Sum(xs) >= 0.0
    ensures Sum(xs) == 0.0 <==> forall j :: 0 <= j < |xs| ==> xs[j] == 0.0
    decreases |xs|
  {
    if |xs| > 0 {
      var init := xs[..|xs| - 1];
      SumNonNegative(init);
      if Sum(xs) == 0.0 {
        forall j | 0 <= j < |xs|
          ensures xs[j] == 0.0
        {
          if j < |xs| - 1 {
            assert init[j] == xs[j];
          }
        }
      } else {
        assert xs[..|xs| - 1] == init;
      }
    }
  }

  /** Every close moved by `c`. */
  function Shift(xs: seq<real>, c: real): (ys: seq<real>)
    ensures |ys| == |xs|
    ensures forall i :: 0 <= i < |xs| ==> ys[i] == xs[i] + c
  {
    seq(|xs|, i requires 0 <= i < |xs| => xs[i] + c)
  }

  /** Moving every term by `c` moves the sum by one `c` per term. */
  lemma {:induction false} SumShift(xs: seq<real>, c: real)
    ensures Sum(Shift(xs, c)) == Sum(xs) + Repeat(|xs|, c)
    decreases |xs|
  {
    if |xs| > 0 {
      var n := |xs| - 1;
      assert Shift(xs, c)[..n] == Shift(xs[..n], c);
      SumShift(xs[..n], c);
    }
  }
}

=== FILE: stochastic.dfy ===
/** `compute_stochastic`: where the close sits inside the range of its
    trailing window. The window's minimum and maximum are taken over the
    close series itself, not over the low and high series. */
module Stochastic {
  import opened Optional
  import opened Series

  const DefaultPeriod: nat := 14

  /** The least close of the inclusive stretch `lo..hi`. */
  function WindowMin(xs: seq<real>, lo: nat, hi: nat): (m: real)
    requires lo <= hi < |xs|
    ensures IsLeast(xs, lo, hi, m)
  {
    MinOfSlice(xs, lo, hi);
    Min(xs[lo..hi + 1])
  }

  /** The greatest close of the inclusive stretch `lo..hi`. */
  function WindowMax(xs: seq<real>, lo: nat, hi: nat): (m: real)
    requires lo <= hi < |xs|
    ensures IsGreatest(xs, lo, hi, m)
  {
    MaxOfSlice(xs, lo, hi);
    Max(xs[lo..hi + 1])
  }

  /** `series.rolling(window=w).min()`: undefined until `w` closes exist,
      then a close of the window that no close of the window undercuts. */
  function RollingMin(xs: seq<real>, w: nat): (r: seq<Option<real>>)
    requires w >= 1
    ensures |r| == |xs|
    ensures forall i :: 0 <= i < |xs| ==> (r[i].Some? <==> w - 1 <= i)
    ensures forall i :: w - 1 <= i < |xs| ==> IsLeast(xs, i - w + 1, i, r[i].value)
  {
    var r := seq(|xs|, i requires 0 <= i < |xs| => if i < w - 1 then None else Some(WindowMin(xs, i - w + 1, i)));
    assert forall i :: w - 1 <= i < |xs| ==> r[i].value == WindowMin(xs, i - w + 1, i);
    r
  }

  /** `series.rolling(window=w).max()`: undefined until `w` closes exist,
      then a close of the window that no close of the window exceeds. */
  function RollingMax(xs: seq<real>, w: nat): (r: seq<Option<real>>)
    requires w >= 1
    ensures |r| == |xs|
    ensures forall i :: 0 <= i < |xs| ==> (r[i].Some? <==> w - 1 <= i)
    ensures forall i :: w - 1 <= i < |xs| ==> IsGreatest(xs, i - w + 1, i, r[i].value)
  {
    var r := seq(|xs|, i requires 0 <= i < |xs| => if i < w - 1 then None else Some(WindowMax(xs, i - w + 1, i)));
    assert forall i :: w - 1 <= i < |xs| ==> r[i].value == WindowMax(xs, i - w + 1, i);
    r
  }

  /** `100 * (close - min_val) / (max_val - min_val)` at one position. A missing
      bound propagates, and a flat window is `0 / 0` (the close lies in its own
      window, so it equals both bounds), which has no value. */
  function StochasticOf(x: real, lo: Option<real>, hi: Option<real>): (v: Option<real>)
    requires lo.Some? && hi.Some? ==> lo.value <= x <= hi.value
    ensures v.Some? <==> lo.Some? && hi.Some? && lo.value < hi.value
    ensures v.Some? ==> 0.0 <= v.value <= 100.0
    ensures v == Some(100.0) <==> v.Some? && x == hi.value
    ensures v == Some(0.0) <==> v.Some? && x == lo.value
    ensures v.Some? ==> v.value * (hi.value - lo.value) == 100.0 * (x - lo.value)
  {
    if lo.None? || hi.None? then None
    else if hi.value - lo.value == 0.0 then None
    else
      var q := 100.0 * (x - lo.value) / (hi.value - lo.value);
      RatioBounds(x - lo.value, hi.value - lo.value);
      RatioInverse(x - lo.value, hi.value - lo.value, q);
      Some(q)
  }

  /** The percentage `q = 100 * a / b` scales back: `q * b == 100 * a`. */
  lemma RatioInverse(a: real, b: real, q: real)
    requires b > 0.0 && q == 100.0 * a / b
    ensures q * b == 100.0 * a
  {
  }

  /** `100 * a / b` for `0 <= a <= b`, `b > 0`: in `[0, 100]`, 0 only for `a = 0`, 100 only for `a = b`. */
  lemma RatioBounds(a: real, b: real)
    requires 0.0 <= a <= b && b > 0.0
    ensures 0.0 <= 100.0 * a / b <= 100.0
    ensures 100.0 * a / b == 100.0 <==> a == b
    ensures 100.0 * a / b == 0.0 <==> a == 0.0
  {
    var q := 100.0 * a / b;
    assert q * b == 100.0 * a;
    if q == 100.0 {
      assert 100.0 * b == 100.0 * a;
    }
  }

  /** Position-wise `StochasticOf` over the close series and its two rolling bounds. */
  function StochasticSeq(xs: seq<real>, lo: seq<Option<real>>, hi: seq<Option<real>>): (r: seq<Option<real>>)
    requires |lo| == |xs| && |hi| == |xs|
    requires forall i :: 0 <= i < |xs| && lo[i].Some? && hi[i].Some? ==> lo[i].value <= xs[i] <= hi[i].value
    ensures |r| == |xs|
    ensures forall i :: 0 <= i < |xs| ==> r[i] == StochasticOf(xs[i], lo[i], hi[i])
  {
    seq(|xs|, i requires 0 <= i < |xs| => StochasticOf(xs[i], lo[i], hi[i]))
  }

  /** `compute_stochastic(series, period)`. */
  function Stochastic(xs: seq<real>, period: nat): (r: seq<Option<real>>)
    requires period >= 1
    ensures |r| == |xs|
    ensures forall i :: 0 <= i < |xs| && i < period - 1 ==> r[i] == None
    ensures forall i :: 0 <= i < |xs| && r[i].Some? ==> 0.0 <= r[i].value <= 100.0
  {
    var lo := RollingMin(xs, period);
    var hi := RollingMax(xs, period);
    assert forall i :: 0 <= i < |xs| && lo[i].Some? && hi[i].Some? ==> lo[i].value <= xs[i] <= hi[i].value by {
      forall i | 0 <= i < |xs| && lo[i].Some? && hi[i].Some?
        ensures lo[i].value <= xs[i] <= hi[i].value
      {
        assert IsLeast(xs, i - period + 1, i, lo[i].value);
        assert IsGreatest(xs, i - period + 1, i, hi[i].value);
      }
    }
    StochasticSeq(xs, lo, hi)
  }

  /** Once the window is full, the oscillator compares the close with its
      window's least and greatest close. */
  lemma StochasticAtFullWindow(xs: seq<real>, period: nat, i: nat)
    requires period >= 1 && period - 1 <= i < |xs|
    ensures RollingMin(xs, period)[i] == Some(WindowMin(xs, i - period + 1, i))
    ensures RollingMax(xs, period)[i] == Some(WindowMax(xs, i - period + 1, i))
    ensures IsLeast(xs, i - period + 1, i, RollingMin(xs, period)[i].value)
    ensures IsGreatest(xs, i - period + 1, i, RollingMax(xs, period)[i].value)
    ensures Stochastic(xs, period)[i] == StochasticOf(xs[i], RollingMin(xs, period)[i], RollingMax(xs, period)[i])
  {
  }

  /** Where the oscillator has a value, it reads back the close: the value
      times the window's range is 100 times the close's height above the
      window's minimum. */
  lemma StochasticReading(xs: seq<real>, period: nat, i: nat)
    requires period >= 1 && period - 1 <= i < |xs|
    ensures Stochastic(xs, period)[i].Some? ==>
      Reads(xs[i], WindowMin(xs, i - period + 1, i), WindowMax(xs, i - period + 1, i), Stochastic(xs, period)[i].value)
  {
    var first := i - period + 1;
    var v := Stochastic(xs, period)[i];
    var lo, hi := WindowMin(xs, first, i), WindowMax(xs, first, i);
    assert lo <= xs[i] <= hi && v == StochasticOf(xs[i], Some(lo), Some(hi)) by {
      StochasticAtFullWindow(xs, period, i);
    }
    if v.Some? {
      ReadingInverse(xs[i], lo, hi, v);
    }
  }

  /** `q` is the reading of `x` on the scale from `lo` (0) to `hi` (100). */
  ghost predicate Reads(x: real, lo: real, hi: real, q: real)
  {
    q * (hi - lo) == 100.0 * (x - lo)
  }

  lemma ReadingInverse(x: real, lo: real, hi: real, v: Option<real>)
    requires lo <= x <= hi && v == StochasticOf(x, Some(lo), Some(hi)) && v.Some?
    ensures Reads(x, lo, hi, v.value)
  {
  }

  /** A close a quarter of the way up its window's range reads 25. */
  lemma StochasticExample()
    ensures Stochastic([0.0, 4.0, 1.0], 3) == [None, None, Some(25.0)]
  {
    var xs := [0.0, 4.0, 1.0];
    var r := Stochastic(xs, 3);
    var lo, hi := WindowMin(xs, 0, 2), WindowMax(xs, 0, 2);
    assert lo == 0.0 by {
      ExampleBounds(xs, lo, hi);
    }
    assert hi == 4.0 by {
      ExampleBounds(xs, lo, hi);
    }
    assert r[2].Some? by {
      StochasticDefinedIff(xs, 3, 2);
      assert xs[1] != xs[2];
    }
    assert r[2].value == 25.0 by {
      StochasticReading(xs, 3, 2);
      QuarterReading(r[2].value);
    }
    assert r[0] == None && r[1] == None;
    assert |r| == 3;
  }

  /** The least and greatest close of `[0, 4, 1]` are 0 and 4. */
  lemma ExampleBounds(xs: seq<real>, lo: real, hi: real)
    requires xs == [0.0, 4.0, 1.0] && IsLeast(xs, 0, 2, lo) && IsGreatest(xs, 0, 2, hi)
    ensures lo == 0.0 && hi == 4.0
  {
    var j :| 0 <= j <= 2 && xs[j] == lo;
    var k :| 0 <= k <= 2 && xs[k] == hi;
    assert lo <= xs[0] && xs[1] <= hi;
  }

  /** Reading the close 1 against the range 0..4 gives 25. */
  lemma QuarterReading(q: real)
    requires Reads(1.0, 0.0, 4.0, q)
    ensures q == 25.0
  {
  }

  /** The oscillator has a value exactly when the window is full and some
      close in it differs from the current one. */
  lemma StochasticDefinedIff(xs: seq<real>, period: nat, i: nat)
    requires period >= 1 && i < |xs|
    ensures Stochastic(xs, period)[i].Some? <==>
      period - 1 <= i && exists j :: i - period + 1 <= j <= i && xs[j] != xs[i]
  {
    if period - 1 <= i {
      StochasticAtFullWindow(xs, period, i);
    }
  }

  /** The oscillator is 100 exactly when the window is full, no close in it
      is above the current one and some close in it is below. */
  lemma StochasticHundredIff(xs: seq<real>, period: nat, i: nat)
    requires period >= 1 && i < |xs|
    ensures Stochastic(xs, period)[i] == Some(100.0) <==>
      && period - 1 <= i
      && (forall j :: i - period + 1 <= j <= i ==> xs[j] <= xs[i])
      && (exists j :: i - period + 1 <= j <= i && xs[j] < xs[i])
  {
    if period - 1 <= i {
      StochasticAtFullWindow(xs, period, i);
    }
  }

  /** The oscillator is 0 exactly when the window is full, no close in it is
      below the current one and some close in it is above. */
  lemma StochasticZeroIff(xs: seq<real>, period: nat, i: nat)
    requires period >= 1 && i < |xs|
    ensures Stochastic(xs, period)[i] == Some(0.0) <==>
      && period - 1 <= i
      && (forall j :: i - period + 1 <= j <= i ==> xs[i] <= xs[j])
      && (exists j :: i - period + 1 <= j <= i && xs[i] < xs[j])
  {
    if period - 1 <= i {
      StochasticAtFullWindow(xs, period, i);
    }
  }

  /** On a strictly rising series with a window of at least two closes, every
      defined position is 100: the current close is the window's maximum. */
  lemma StochasticOfStrictlyIncreasing(xs: seq<real>, period: nat)
    requires period >= 2 && StrictlyIncreasing(xs)
    ensures forall i :: period - 1 <= i < |xs| ==> Stochastic(xs, period)[i] == Some(100.0)
  {
    forall i | period - 1 <= i < |xs|
      ensures Stochastic(xs, period)[i] == Some(100.0)
    {
      var lo := i - period + 1;
      assert xs[lo] < xs[i];
      forall j | lo <= j <= i
        ensures xs[j] <= xs[i]
      {
        if j < i {
          assert xs[j] < xs[i];
        }
      }
      StochasticHundredIff(xs, period, i);
    }
  }

  /** A flat close series gives no value anywhere (every window is `0 / 0`). */
  lemma StochasticOfConstant(xs: seq<real>, period: nat, c: real)
    requires period >= 1 && ConstantAt(xs, c)
    ensures forall i :: 0 <= i < |xs| ==> Stochastic(xs, period)[i] == None
  {
    forall i | 0 <= i < |xs|
      ensures Stochastic(xs, period)[i] == None
    {
      StochasticDefinedIff(xs, period, i);
    }
  }
}
